=== FILE: README.md ===
# inverter — a Dafny model of the fitting logic

`inverter` fits twelve snow and sea-ice parameters to Ku- and Ka-band radar
backscatter. It does this by running the SMRT radiative-transfer simulator
inside scipy's `basinhopping` and `minimize`. This project models the small
amount of pure logic around those two engines and proves properties of it:

- **Box bounds.** `check_valid_bounds`, `check_guess_in_bounds` and the
  basin-hopping accept test `MyBounds` (module `Bounds`).
- **The bounded step proposer `MyTakeStep`** (module `TakeStep`). The uniform
  random draw is an explicit input `u` in `[0, 1)`, and the perturbation is
  `low + (high - low) * u`.
- **The misfit `cost_fn`** over numpy-like samples, plus the `calculate_cost`
  glue (modules `Samples`, `Cost` and `Params`):
  - A sample is `Num(r)` or `NaN`.
  - `np.sum` absorbs NaN, and `np.mean` of an empty array is NaN.
  - 1-D arrays broadcast: equal lengths, or one side of length 1.
  - A NaN total becomes the sentinel 1000.
- **The parameter-name mapping** of `print_params` and `run_from_params`
  (module `Params`). The simulator is an abstract function from keyword
  arguments to channels, or to the exception it raises.
- **The tracking driver `track_mode.py`** (modules `Observations` and `Track`):
  - The key construction of `get_obs_dict`.
  - First-index argmin selection inside each stored run, then across runs.
  - The 25-round warm-started refinement with an abstract local minimiser,
    which may also raise.
  - The order in which the script's stages can raise: the printed table rows,
    the observations of timestep 0, the selection, `print_params`, the rounds.

Python exceptions are modelled as the `Err` case of `Errors.Result`:
- `KeyError`: a missing dictionary key.
- `IndexError`: a list index past the end.
- `ValueError`: `list.index` of an absent value, `np.min` of an empty list, or mismatched shapes. `np.min` of an empty pandas column is NaN, and the `list.index` that follows raises this ValueError.
- `TypeError`: `zip` iterating over a scalar `x_new`.
- `RuntimeError`: the bare `raise` in `check_guess_in_bounds`, which has no active exception.

Two behaviours of the code worth stating, because the names around them suggest otherwise:
- `calculate_cost` (inverter_tools.py:159-164) does not catch simulator failures and has no penalty path for them. Only the NaN sentinel of `cost_fn` exists.
- The misfit is the mean of squared differences. There is no square root, although the list is called `rmsds`.

## Model

| member | source | states |
|---|---|---|
| Bounds.CheckValidBounds | inverter_tools.py:209-214 | true exactly when every zipped pair has `lo <= p <= hi`, both ends inclusive; false exactly when some zipped position lies below `lo` or above `hi` |
| Bounds.CheckValidBoundsIsWithin | inverter_tools.py:209-214 | the loop's verdict agrees with the declarative predicate `WithinBounds` |
| Bounds.CheckValidBoundsTruncates | inverter_tools.py:210 | because of `zip`, positions past the shorter of the two lists are never inspected: extra parameters or extra bounds do not change the verdict |
| Bounds.CheckGuessInBounds | inverter_tools.py:38-43 | raises (RuntimeError) exactly when some guess is strictly below or above its interval, and otherwise returns 0 |
| Bounds.GuessCheckAgreesWithValidBounds | inverter_tools.py:38-43 | the guess check returns 0 exactly when `check_valid_bounds` is true, and raises exactly when it is false |
| Bounds.MyBounds.Call | inverter_classes.py:20-23 | a missing `x_new` is a KeyError and a scalar `x_new` a TypeError; otherwise the test accepts exactly when `x_new` lies within the bounds |
| Bounds.AcceptIgnoresOtherKwargs | inverter_classes.py:20-23 | two keyword sets with the same `x_new` get the same verdict, whatever else they contain |
| Bounds.AcceptIsValidBounds | inverter_classes.py:21-23 | for a vector `x_new`, the accept test returns exactly `check_valid_bounds(x_new, bounds)` |
| TakeStep.PerturbationBounded | inverter_classes.py:12-13 | a draw from `uniform(-r*s, r*s)` is at most `abs(s)*r` in absolute value, where `r = abs(hi - lo)` |
| TakeStep.PerturbationCoversRange | inverter_classes.py:12-13 | for positive step and width, every offset in `[-r*s, r*s)` is produced by some unit draw, so the bound above is tight |
| TakeStep.MyTakeStep.Step | inverter_classes.py:9-14 | fails with IndexError at position `len(x)` exactly when there are more bounds than coordinates |
| TakeStep.MyTakeStep.Call | inverter_classes.py:9-14 | the loop computes `Step`: same length as `x`; coordinate `i < len(bounds)` is `x[i]` plus its perturbation; coordinates at or past `len(bounds)` are unchanged |
| TakeStep.NewTakeStep | inverter_classes.py:5-7 | the default stepsize is 1 and the bounds are stored as given |
| TakeStep.StepDisplacementBounded | inverter_classes.py:11-13 | in a step that does not raise, every bounded coordinate moves by at most `abs(stepsize) * abs(hi - lo)`, and every other coordinate stays put |
| TakeStep.ZeroStepIsIdentity | inverter_classes.py:10-13 | with stepsize 0 and no more bounds than coordinates, the step returns its input unchanged |
| TakeStep.StepOffsetIndependentOfX | inverter_classes.py:12-13 | for start vectors at least as long as the bounds, the offset added to coordinate `i` depends only on the bound, the stepsize and the draw, never on `x` |
| TakeStep.StepCanLeaveBounds | inverter_classes.py:13-14 | no clipping: a step from the upper end of `[0, 10]` lands at 15, outside the box |
| Samples.Sum | inverter_tools.py:152 | `np.sum` is NaN exactly when some term is NaN |
| Samples.Mean | inverter_tools.py:149 | `np.mean` is NaN exactly when the array is empty or holds a NaN |
| Samples.Difference | inverter_tools.py:148 | `model - obs` succeeds exactly when the shapes broadcast, otherwise ValueError; element `i` is the difference of the broadcast elements |
| Samples.DifferenceKeepsNaN | inverter_tools.py:148 | when the shapes broadcast, a NaN on either side survives the subtraction, or the difference is empty |
| Samples.SumOfNums | inverter_tools.py:152 | on NaN-free samples `np.sum` is the real sum |
| Samples.RealSumNonNegative | inverter_tools.py:152 | a sum of non-negative terms is non-negative, and zero exactly when every term is zero |
| Cost.ChannelMisfit | inverter_tools.py:146-149 | a missing `key + "_Mean"` is a KeyError, an unbroadcastable shape a ValueError; the mean square is NaN exactly when the difference is empty or holds a NaN |
| Cost.Misfits | inverter_tools.py:144-150 | one misfit per simulated channel, in order; the first channel that raises determines the exception |
| Cost.CostFn | inverter_tools.py:143-156 | succeeds exactly when every channel's misfit does, propagates the first exception otherwise, and returns 1000 when the summed misfits are NaN |
| Cost.NaNGivesPenalty | inverter_tools.py:152-154 | when every channel has its `_Mean` observation in a broadcastable shape, a NaN anywhere in a channel, simulated or observed, makes the cost exactly 1000 |
| Cost.EmptyChannelGivesPenalty | inverter_tools.py:149-154 | when every channel has its `_Mean` observation in a broadcastable shape, an empty simulated channel has a NaN mean, so the cost is 1000 |
| Cost.CostReadsOnlyMeanKeys | inverter_tools.py:145-147 | observations that agree on every `simkey + "_Mean"` entry give the same cost; no other entry is read |
| Cost.CostFnIsReferenceCost | inverter_tools.py:143-152 | on NaN-free, non-empty, broadcastable channels the cost equals the sum over channels of the mean squared residual, with no square root |
| Cost.MeanSquaredResidualNonNegative | inverter_tools.py:148-149 | for broadcastable shapes of non-zero broadcast length, a channel's mean square is non-negative, and zero when the channel equals its observation |
| Cost.ReferenceCostNonNegative | inverter_tools.py:150-152 | when every channel has its observation in a broadcastable shape of non-zero length, the sum of channel mean squares is non-negative, and zero when every channel matches |
| Cost.CleanCostNonNegative | inverter_tools.py:143-156 | when every channel has its `_Mean` observation in a broadcastable shape whose broadcast length is non-zero, a NaN-free cost does not raise, is non-negative, and is 0 when every simulated channel equals its observation |
| Cost.CostZeroWhenChannelsEqualObservations | inverter_tools.py:143-156 | a simulation whose every channel is non-empty and exactly equals its observation costs exactly 0 |
| Params.PrintParams | inverter_tools.py:167-183 | positions 0..11 map to twelve distinct fixed names, in order; a shorter list fails at its first missing index |
| Params.RunFromParams | inverter_tools.py:186-202 | a vector shorter than twelve fails at its first missing index; otherwise `snow_sal` is fixed at 0 |
| Params.RunFromParamsMatchesNames | inverter_tools.py:167-200 | the simulator argument that `run_from_params` fills from position `i` has the name `print_params` gives position `i`, and `snow_sal` is 0 |
| Params.RunFromParamsRoundTrip | inverter_tools.py:186-200 | reading the fitted arguments back gives the first twelve positions of the vector |
| Params.ParamsFromArgsRoundTrip | inverter_tools.py:186-200 | every argument set with zero snow salinity is what `run_from_params` builds from its own twelve-vector |
| Params.CalculateCost | inverter_tools.py:159-164 | a short vector is an IndexError; an exception of the simulator passes through uncaught; otherwise the cost of the simulated channels |
| Params.CalculateCostReadsTwelve | inverter_tools.py:159-164 | two vectors of at least twelve entries that agree on their first twelve positions have the same cost |
| Params.RunModelKeysValues | inverter_tools.py:107-116 | the simulator's channel keys are `Ka_HV`, `Ku_HV`, `Ka_HH`, `Ku_HH`, in loop order |
| Observations.AvailablePrefix | track_mode.py:33-35 | counts the pairs, from the front, whose table has the requested row; the next pair has none |
| Observations.ObsDictOf | track_mode.py:32-37 | the dictionary holds exactly the six `<band>_<pol>_Mean` keys, each bound to its table's row |
| Observations.GetObsDict | track_mode.py:30-37 | succeeds exactly when all six tables have the row; otherwise the first failing pair gives a KeyError for its table name or an IndexError for the timestep; on success exactly six keys, each bound to its row |
| Observations.RunModelKeysAreObserved | track_mode.py:33-35 | every simulated channel finds its `_Mean` key among the six, and none of them reads a `VV` entry |
| Observations.VVObservationsIgnored | track_mode.py:33-35 | for a simulation whose channels are `run_model`'s four keys, the `VV` observations never influence the cost |
| Track.MinCost | track_mode.py:49-50 | an empty column stops the selection with ValueError (pandas answers NaN and `list.index` then raises); otherwise the result is in the column and at most every entry |
| Track.IndexOf | track_mode.py:50 | `list.index` fails with ValueError exactly when the value is absent; otherwise it returns the first position holding it |
| Track.IndexOfMinIsFirstArgMin | track_mode.py:49-50 | `list.index(np.min(xs))` is the first position of the minimum |
| Track.FirstArgMinUnique | track_mode.py:49-50 | the first position of the minimum is unique |
| Track.BestOfRun | track_mode.py:48-51 | an empty run is a ValueError; otherwise the minimum cost, at most every cost of the run, with the parameters of the first row holding it |
| Track.RunBests | track_mode.py:44-54 | the per-run minima in run order; the first empty run raises |
| Track.SelectBest | track_mode.py:56-58 | succeeds exactly when there is a run and no run is empty; the result is the entry of the first run whose minimum is the overall minimum |
| Track.SelectBestIsGlobalMinimum | track_mode.py:44-58 | the selected cost is at most every cost of every row of every run |
| Track.SelectBestIsStored | track_mode.py:48-58 | the selected vector is stored next to the selected cost, at the first minimum row of the first run attaining the overall minimum |
| Track.InitialBoundsWellFormed | track_mode.py:63-77 | twelve bounds, each with `lo <= hi`, and `print_params` accepts them |
| Track.SignatureSource | track_mode.py:30-37 | round `k`'s observations (track_mode.py:91) are `get_obs_dict(signatures, k)`; when they exist they hold exactly the six `_Mean` keys, and every earlier round's observations exist too, since every table has more rows than `k` |
| Track.Chain | track_mode.py:88-107 | a completed chain of `n` rounds has exactly `n` fits |
| Track.ChainIsWarmStarted | track_mode.py:83-104 | in a completed chain, round 0 refines the start vector, round `k > 0` refines round `k-1`'s point, each against its own round's observations, with the same bounds every time |
| Track.ChainIsUnique | track_mode.py:83-104 | any `n` fits that follow that recurrence are the chain |
| Track.ChainAfterPrefix | track_mode.py:88-107 | a chain whose first rounds follow the recurrence is those rounds followed by the chain of the rest, started from the last of their points |
| Track.ChainFailsAtFirstFailingRound | track_mode.py:88-101 | a chain that raises does so at its first failing round: the earlier rounds follow the recurrence and that round, fetching observations or minimising, raises the chain's exception |
| Track.ChainCompletesWithObservations | track_mode.py:88-101 | a completed chain had the observations of every round; with a minimiser that never raises, having them all is enough |
| Track.ChainWithinBounds | track_mode.py:97-104 | if the minimiser keeps its results within its box, every point of a completed chain lies within the bounds |
| Track.RefineFrom | track_mode.py:83-107 | the loop ends with the chain's exception when a round raises; otherwise the stored columns are the chain's points and costs, one per round, appended whatever the cost |
| Track.FirstAndLastRows | track_mode.py:17-20 | a missing `Ku_HH_RS2` table is a KeyError, one without rows an IndexError of `iloc[0]`; otherwise two rows of that table, equal when it has one row |
| Track.TrackMode | track_mode.py:17-107 | exceptions in script order: the printed rows (17-20), the observations of timestep 0 (39), the selection (44-58), `print_params` of the selected vector (61), then the first failing round; otherwise 25 index-aligned entries that are the warm-start chain over `get_obs_dict(windowed, k)` with `initial_bounds` from the selected vector |

## Left out

- The SMRT simulator `run_model` (inverter_tools.py:46-118) is foreign physics. It is the abstract `Params.Simulator`. Only its key construction (inverter_tools.py:107-116) is modelled, in `Params.RunModelKeys`.
- Spreadsheet loading and resampling (`prep_obs`, `get_leg_signature`, inverter_tools.py:11-35) are I/O. Signature tables enter as a map.
  - track_mode.py:15 calls `prep_obs` with an argument that it does not accept. That call belongs to the loading step and is not modelled.
- The date-window slice in `get_obs_dict` (track_mode.py:34) is a pandas operation on timestamps. `Track.TrackMode` takes the loaded tables and the same tables cut to the window as two inputs, and does not relate them.
- The NaN-row scan (track_mode.py:23-25), every `print`, and the plotting functions are output only. `np.isnan` of a row of samples cannot raise. The rows read at track_mode.py:17-20 are modelled in `Track.FirstAndLastRows` because reading them can raise.
- Loading pickled runs (track_mode.py:44-46) and dumping the results (track_mode.py:110-115) are file I/O. Runs enter as sequences of `TraceEntry`, and the result is the returned `Trajectory`.
- The local minimiser L-BFGS-B (track_mode.py:97-101) and scipy's `basinhopping`, with its Metropolis test, are foreign numerics. The minimiser is the abstract `Track.Minimiser`, which returns a fit or an exception. The model does not say that it minimises `calculate_cost`.
- Stored costs are reals. A NaN cost in a pickled run, and how `np.min` and `list.index` treat it, is not modelled.
- The nine stored runs (`range(1, 10)`, track_mode.py:44) are any number of runs in the model.
- The driver scripts main.py and search_mode.py are not part of this model.
- `np.random.uniform` is replaced by an explicit draw in `[0, 1)`.
- Floating point is modelled as exact reals plus a NaN case. Infinities and rounding are not modelled.
- TakeStep.MyTakeStep.Call: returns a new vector. Python updates `x` in place and returns the same object; aliasing is not modelled.
- Bounds.CheckValidBounds: parameters are exact reals. A NaN parameter makes both comparisons false, so Python accepts it; that case is not representable here.
- Cost.CleanCostNonNegative: proves only that a matching simulation costs 0. It does not prove the converse, that zero cost forces every channel to match its observation.
- Bounds.MyBounds.Call: `x_new` is a vector or a scalar. Other Python types are not modelled.

=== FILE: bounds.dfy ===
/** Box bounds: the inclusive per-dimension interval check used by the initial
    guess check, by the basin-hopping accept test and by the local minimiser. */
module Bounds {
  import opened Errors

  /** One `(lower, upper)` pair of a bounds list. */
  datatype Bound = Bound(lo: real, hi: real)

  /** How many positions Python's `zip(params, bounds)` visits. */
  function ZipLength<T, U>(xs: seq<T>, ys: seq<U>): (n: nat)
    ensures n <= |xs| && n <= |ys|
    ensures n == |xs| || n == |ys|
  {
    if |xs| <= |ys| then |xs| else |ys|
  }

  /** Every zipped position lies inside its interval, both endpoints included. */
  predicate WithinBounds(params: seq<real>, bounds: seq<Bound>) {
    forall i :: 0 <= i < |params| && i < |bounds| ==> bounds[i].lo <= params[i] <= bounds[i].hi
  }

  /** `check_valid_bounds`: walks the zipped pairs and answers false at the
      first parameter outside its interval. */
  function CheckValidBounds(params: seq<real>, bounds: seq<Bound>): (valid: bool)
    ensures valid <==> forall i :: 0 <= i < ZipLength(params, bounds) ==> bounds[i].lo <= params[i] <= bounds[i].hi
    ensures !valid <==> exists i :: 0 <= i < ZipLength(params, bounds) && (bounds[i].lo > params[i] || params[i] > bounds[i].hi)
  {
    if |params| == 0 || |bounds| == 0 then true
    else if bounds[0].lo > params[0] || params[0] > bounds[0].hi then false
    else
      var rest := CheckValidBounds(params[1..], bounds[1..]);
      assert forall i :: 1 <= i < ZipLength(params, bounds) ==> params[1..][i - 1] == params[i] && bounds[1..][i - 1] == bounds[i];
      rest
  }

  /** The check agrees with the inclusive-interval predicate. */
  lemma CheckValidBoundsIsWithin(params: seq<real>, bounds: seq<Bound>)
    ensures CheckValidBounds(params, bounds) <==> WithinBounds(params, bounds)
  {
  }

  /** Because of `zip`, parameters past the end of the bounds list (or bounds
      past the end of the parameters) are never inspected. */
  lemma CheckValidBoundsTruncates(params: seq<real>, bounds: seq<Bound>, extraParams: seq<real>, extraBounds: seq<Bound>)
    requires |params| == |bounds|
    ensures CheckValidBounds(params + extraParams, bounds) == CheckValidBounds(params, bounds)
    ensures CheckValidBounds(params, bounds + extraBounds) == CheckValidBounds(params, bounds)
  {
    assert forall i :: 0 <= i < |params| ==> (params + extraParams)[i] == params[i];
    assert forall i :: 0 <= i < |bounds| ==> (bounds + extraBounds)[i] == bounds[i];
  }

  /** `check_guess_in_bounds`: raises (a bare `raise`, so a RuntimeError) at
      the first guess strictly below or above its interval, else returns 0. */
  function CheckGuessInBounds(guess: seq<real>, bounds: seq<Bound>): (r: Result<int>)
    ensures r.Err? <==> exists i :: 0 <= i < ZipLength(guess, bounds) && (guess[i] < bounds[i].lo || guess[i] > bounds[i].hi)
    ensures r.Err? ==> r.error == RuntimeError
    ensures r.Ok? ==> r.value == 0
  {
    if |guess| == 0 || |bounds| == 0 then Ok(0)
    else if guess[0] < bounds[0].lo || guess[0] > bounds[0].hi then Err(RuntimeError)
    else
      var rest := CheckGuessInBounds(guess[1..], bounds[1..]);
      assert forall i :: 1 <= i < ZipLength(guess, bounds) ==> guess[1..][i - 1] == guess[i] && bounds[1..][i - 1] == bounds[i];
      rest
  }

  /** The guess check passes exactly when the bounds check does. */
  lemma GuessCheckAgreesWithValidBounds(guess: seq<real>, bounds: seq<Bound>)
    ensures CheckGuessInBounds(guess, bounds) == Ok(0) <==> CheckValidBounds(guess, bounds)
    ensures CheckGuessInBounds(guess, bounds) == Err(RuntimeError) <==> !CheckValidBounds(guess, bounds)
  {
  }

  /** A keyword argument handed to the accept test by basin-hopping: the
      vectors `x_new`, `x_old` or the scalars `f_new`, `f_old`. */
  datatype KwArg = Vector(elems: seq<real>) | Scalar(value: real)

  /** `MyBounds`: the accept test holding the bounds list it was built with. */
  datatype MyBounds = MyBounds(bounds: seq<Bound>) {

    /** `MyBounds.__call__(**kwargs)`: reads `x_new` and returns
        `check_valid_bounds(x_new, bounds)`; a missing `x_new` is a KeyError and
        a scalar `x_new` cannot be zipped (TypeError). */
    function Call(kwargs: map<string, KwArg>): (r: Result<bool>)
      ensures "x_new" !in kwargs <==> r == Err(KeyError("x_new"))
      ensures "x_new" in kwargs && kwargs["x_new"].Scalar? ==> r == Err(TypeError)
      ensures r.Ok? <==> "x_new" in kwargs && kwargs["x_new"].Vector?
      ensures r == Ok(true) <==> "x_new" in kwargs && kwargs["x_new"].Vector? && WithinBounds(kwargs["x_new"].elems, bounds)
    {
      if "x_new" !in kwargs then Err(KeyError("x_new"))
      else match kwargs["x_new"]
        case Scalar(_) => Err(TypeError)
        case Vector(params) => Ok(CheckValidBounds(params, bounds))
    }
  }

  /** The accept test ignores every keyword argument other than `x_new`. */
  lemma AcceptIgnoresOtherKwargs(test: MyBounds, kw1: map<string, KwArg>, kw2: map<string, KwArg>)
    requires "x_new" in kw1 <==> "x_new" in kw2
    requires "x_new" in kw1 ==> kw1["x_new"] == kw2["x_new"]
    ensures test.Call(kw1) == test.Call(kw2)
  {
  }

  /** On a vector `x_new` the accept test returns exactly the bounds check. */
  lemma AcceptIsValidBounds(test: MyBounds, kwargs: map<string, KwArg>, x: seq<real>)
    requires "x_new" in kwargs && kwargs["x_new"] == Vector(x)
    ensures test.Call(kwargs) == Ok(CheckValidBounds(x, test.bounds))
  {
  }
}

=== FILE: cost.dfy ===
/** The misfit `cost_fn`: for every channel the simulator produced, the mean of
    the squared differences against the observation stored under
    `<channel>_Mean`, summed over channels, with a NaN total replaced by 1000. */
module Cost {
  import opened Errors
  import opened Samples

  /** One entry of the simulator's result dictionary, in insertion order. */
  datatype Channel = Channel(key: string, values: seq<Sample>)

  /** The simulator's result: channel key to simulated backscatter per angle.
      A Python dict holds each key once; a sequence with a repeated key is
      outside what the simulator can return. */
  type Simulation = seq<Channel>

  /** The observation dictionary: `<channel>_Mean` to observed backscatter per angle. */
  type Observations = map<string, seq<Sample>>

  /** The cost that replaces a NaN total. */
  const NaNPenalty: real := 1000.0

  /** The observation key a simulated channel is compared against. */
  function MeanKey(key: string): (k: string)
    ensures |k| == |key| + 5 && k[..|key|] == key
  {
    key + "_Mean"
  }

  /** `np.mean(diff ** 2)` for one simulated channel; a missing observation is
      a KeyError and shapes that do not broadcast are a ValueError. */
  function ChannelMisfit(c: Channel, obs: Observations): (r: Result<Sample>)
    ensures MeanKey(c.key) !in obs <==> r == Err(KeyError(MeanKey(c.key)))
    ensures r.Ok? <==> MeanKey(c.key) in obs && Broadcastable(|c.values|, |obs[MeanKey(c.key)]|)
    ensures MeanKey(c.key) in obs && !Broadcastable(|c.values|, |obs[MeanKey(c.key)]|) ==> r == Err(ValueError)
    ensures r.Ok? ==> (r.value.NaN? <==> var d := Difference(c.values, obs[MeanKey(c.key)]).value; |d| == 0 || HasNaN(d))
  {
    var k := MeanKey(c.key);
    if k !in obs then Err(KeyError(k))
    else match Difference(c.values, obs[k])
      case Err(e) => Err(e)
      case Ok(d) =>
        assert HasNaN(Squares(d)) <==> HasNaN(d) by {
          if HasNaN(d) {
            var j :| 0 <= j < |d| && d[j].NaN?;
            assert Squares(d)[j].NaN?;
          }
        }
        Ok(Mean(Squares(d)))
  }

  /** The loop over the simulator's keys: one misfit per channel in order; the
      first channel that raises ends the loop with its exception. */
  function Misfits(res: Simulation, obs: Observations): (r: Result<seq<Sample>>)
    ensures r.Ok? <==> forall i :: 0 <= i < |res| ==> ChannelMisfit(res[i], obs).Ok?
    ensures r.Ok? ==> |r.value| == |res|
    ensures r.Ok? ==> forall i :: 0 <= i < |res| ==> r.value[i] == ChannelMisfit(res[i], obs).value
    ensures r.Err? ==> exists k :: 0 <= k < |res| && ChannelMisfit(res[k], obs) == Err(r.error)
                                   && forall j :: 0 <= j < k ==> ChannelMisfit(res[j], obs).Ok?
  {
    if |res| == 0 then Ok([])
    else match ChannelMisfit(res[0], obs)
      case Err(e) => Err(e)
      case Ok(m) =>
        match Misfits(res[1..], obs)
        case Err(e) =>
          FirstErrorShifts(res, obs, e);
          Err(e)
        case Ok(ms) =>
          assert forall i :: 1 <= i < |res| ==> res[i] == res[1..][i - 1];
          Ok([m] + ms)
  }

  /** The first failing channel of the tail is the first failing channel of
      the whole simulation when the head succeeds. */
  lemma FirstErrorShifts(res: Simulation, obs: Observations, e: Error)
    requires |res| > 0 && ChannelMisfit(res[0], obs).Ok?
    requires exists k :: 0 <= k < |res[1..]| && ChannelMisfit(res[1..][k], obs) == Err(e)
                         && forall j :: 0 <= j < k ==> ChannelMisfit(res[1..][j], obs).Ok?
    ensures exists k :: 0 <= k < |res| && ChannelMisfit(res[k], obs) == Err(e)
                        && forall j :: 0 <= j < k ==> ChannelMisfit(res[j], obs).Ok?
  {
    var k :| 0 <= k < |res[1..]| && ChannelMisfit(res[1..][k], obs) == Err(e)
             && forall j :: 0 <= j < k ==> ChannelMisfit(res[1..][j], obs).Ok?;
    assert forall j :: 1 <= j < k + 1 ==> res[j] == res[1..][j - 1];
    assert ChannelMisfit(res[k + 1], obs) == Err(e);
  }

  /** `cost_fn(res, l)`: the sum of the per-channel misfits, or the penalty
      when that sum is NaN. */
  function CostFn(res: Simulation, obs: Observations): (r: Result<real>)
    ensures r.Ok? <==> forall i :: 0 <= i < |res| ==> ChannelMisfit(res[i], obs).Ok?
    ensures r.Err? ==> r == Misfits(res, obs).PropagateFailure()
    ensures r.Ok? && HasNaN(Misfits(res, obs).value) ==> r.value == NaNPenalty
  {
    match Misfits(res, obs)
    case Err(e) => Err(e)
    case Ok(ms) =>
      match Sum(ms)
      case NaN => Ok(NaNPenalty)
      case Num(total) => Ok(total)
  }

  /** Every simulated channel has its observation, in a shape that broadcasts
      against it: exactly when no channel raises. */
  predicate Compared(res: Simulation, obs: Observations) {
    forall i :: 0 <= i < |res| ==>
      MeanKey(res[i].key) in obs && Broadcastable(|res[i].values|, |obs[MeanKey(res[i].key)]|)
  }

  /** When every channel is compared (it has its observation in a shape that
      broadcasts), a NaN anywhere in a channel, simulated or observed, makes
      the cost exactly the penalty. */
  lemma NaNGivesPenalty(res: Simulation, obs: Observations, k: nat)
    requires Compared(res, obs)
    requires k < |res| && MeanKey(res[k].key) in obs
    requires HasNaN(res[k].values) || HasNaN(obs[MeanKey(res[k].key)])
    ensures CostFn(res, obs) == Ok(NaNPenalty)
  {
    var o := obs[MeanKey(res[k].key)];
    DifferenceKeepsNaN(res[k].values, o);
    assert ChannelMisfit(res[k], obs).value.NaN?;
    assert Misfits(res, obs).value[k].NaN?;
  }

  /** When every channel is compared, an empty simulated channel has no mean
      (numpy gives NaN), so the cost is the penalty. */
  lemma EmptyChannelGivesPenalty(res: Simulation, obs: Observations, k: nat)
    requires Compared(res, obs)
    requires k < |res| && |res[k].values| == 0
    ensures CostFn(res, obs) == Ok(NaNPenalty)
  {
    assert Misfits(res, obs).value[k].NaN?;
  }

  /** Only the entries `<channel>_Mean` of the simulated channels are read:
      observations that agree on those keys give the same cost. */
  lemma {:induction false} CostReadsOnlyMeanKeys(res: Simulation, obs1: Observations, obs2: Observations)
    requires forall i :: 0 <= i < |res| ==> (MeanKey(res[i].key) in obs1 <==> MeanKey(res[i].key) in obs2)
    requires forall i :: 0 <= i < |res| && MeanKey(res[i].key) in obs1 ==> obs1[MeanKey(res[i].key)] == obs2[MeanKey(res[i].key)]
    ensures CostFn(res, obs1) == CostFn(res, obs2)
  {
    MisfitsReadOnlyMeanKeys(res, obs1, obs2);
  }

  lemma {:induction false} MisfitsReadOnlyMeanKeys(res: Simulation, obs1: Observations, obs2: Observations)
    requires forall i :: 0 <= i < |res| ==> (MeanKey(res[i].key) in obs1 <==> MeanKey(res[i].key) in obs2)
    requires forall i :: 0 <= i < |res| && MeanKey(res[i].key) in obs1 ==> obs1[MeanKey(res[i].key)] == obs2[MeanKey(res[i].key)]
    ensures Misfits(res, obs1) == Misfits(res, obs2)
  {
    if |res| > 0 {
      assert ChannelMisfit(res[0], obs1) == ChannelMisfit(res[0], obs2);
      assert forall i :: 1 <= i < |res| ==> res[1..][i - 1] == res[i];
      MisfitsReadOnlyMeanKeys(res[1..], obs1, obs2);
    }
  }

  // ---------------------------------------------------------------------------
  // Reference definition over NaN-free data

  /** A simulated channel with no NaN in it. */
  datatype RealChannel = RealChannel(key: string, values: seq<real>)

  function LiftSimulation(res: seq<RealChannel>): (r: Simulation)
    ensures |r| == |res|
    ensures forall i :: 0 <= i < |res| ==> r[i] == Channel(res[i].key, Lift(res[i].values))
  {
    seq(|res|, i requires 0 <= i < |res| => Channel(res[i].key, Lift(res[i].values)))
  }

  function LiftObservations(obs: map<string, seq<real>>): (r: Observations)
    ensures r.Keys == obs.Keys
    ensures forall k :: k in obs ==> r[k] == Lift(obs[k])
  {
    map k | k in obs :: Lift(obs[k])
  }

  /** The squared residuals of one channel against its observation, after broadcasting. */
  function SquaredResiduals(m: seq<real>, o: seq<real>): (r: seq<real>)
    requires Broadcastable(|m|, |o|)
    ensures |r| == BroadcastLength(|m|, |o|)
  {
    var n := BroadcastLength(|m|, |o|);
    seq(n, i requires 0 <= i < n => (Element(m, i) - Element(o, i)) * (Element(m, i) - Element(o, i)))
  }

  /** The mean squared residual of one channel. No square root is taken. */
  function MeanSquaredResidual(m: seq<real>, o: seq<real>): real
    requires Broadcastable(|m|, |o|) && BroadcastLength(|m|, |o|) > 0
  {
    RealSum(SquaredResiduals(m, o)) / BroadcastLength(|m|, |o|) as real
  }

  /** Every simulated channel has an observation of a compatible, non-empty shape. */
  predicate Comparable(res: seq<RealChannel>, obs: map<string, seq<real>>) {
    forall i :: 0 <= i < |res| ==>
      && MeanKey(res[i].key) in obs
      && Broadcastable(|res[i].values|, |obs[MeanKey(res[i].key)]|)
      && BroadcastLength(|res[i].values|, |obs[MeanKey(res[i].key)]|) > 0
  }

  /** The intended misfit: the sum over simulated channels of the mean squared residual. */
  function ReferenceCost(res: seq<RealChannel>, obs: map<string, seq<real>>): real
    requires Comparable(res, obs)
  {
    RealSum(seq(|res|, i requires 0 <= i < |res| => MeanSquaredResidual(res[i].values, obs[MeanKey(res[i].key)])))
  }

  /** Every simulated value equals its (broadcast) observation. */
  predicate Matches(res: seq<RealChannel>, obs: map<string, seq<real>>)
    requires Comparable(res, obs)
  {
    forall i, j :: 0 <= i < |res| && 0 <= j < BroadcastLength(|res[i].values|, |obs[MeanKey(res[i].key)]|) ==>
      Element(res[i].values, j) == Element(obs[MeanKey(res[i].key)], j)
  }

  lemma ChannelMisfitOfReals(c: RealChannel, obs: map<string, seq<real>>)
    requires MeanKey(c.key) in obs
    requires Broadcastable(|c.values|, |obs[MeanKey(c.key)]|) && BroadcastLength(|c.values|, |obs[MeanKey(c.key)]|) > 0
    ensures ChannelMisfit(Channel(c.key, Lift(c.values)), LiftObservations(obs))
            == Ok(Num(MeanSquaredResidual(c.values, obs[MeanKey(c.key)])))
  {
    var m := c.values;
    var o := obs[MeanKey(c.key)];
    var d := Difference(Lift(m), Lift(o)).value;
    var sq := SquaredResiduals(m, o);
    forall i | 0 <= i < |d|
      ensures Squares(d)[i] == Num(sq[i])
    {
      assert d[i] == Sub(Element(Lift(m), i), Element(Lift(o), i));
      assert Element(Lift(m), i) == Num(Element(m, i));
      assert Element(Lift(o), i) == Num(Element(o, i));
    }
    SumOfNums(Squares(d), sq);
  }

  /** On NaN-free data whose channels all have observations, the cost is the
      reference misfit: no penalty applies. */
  lemma CostFnIsReferenceCost(res: seq<RealChannel>, obs: map<string, seq<real>>)
    requires Comparable(res, obs)
    ensures CostFn(LiftSimulation(res), LiftObservations(obs)) == Ok(ReferenceCost(res, obs))
  {
    var sim := LiftSimulation(res);
    var lobs := LiftObservations(obs);
    var terms := seq(|res|, i requires 0 <= i < |res| => MeanSquaredResidual(res[i].values, obs[MeanKey(res[i].key)]));
    forall i | 0 <= i < |res|
      ensures ChannelMisfit(sim[i], lobs) == Ok(Num(terms[i]))
    {
      ChannelMisfitOfReals(res[i], obs);
    }
    var ms := Misfits(sim, lobs).value;
    SumOfNums(ms, terms);
  }

  lemma SquareNonNegative(e: real)
    ensures e * e >= 0.0
  {
    if e < 0.0 {
      assert e * e == (-e) * (-e);
    }
  }

  lemma MeanSquaredResidualNonNegative(m: seq<real>, o: seq<real>)
    requires Broadcastable(|m|, |o|) && BroadcastLength(|m|, |o|) > 0
    ensures MeanSquaredResidual(m, o) >= 0.0
    ensures (forall j :: 0 <= j < BroadcastLength(|m|, |o|) ==> Element(m, j) == Element(o, j)) ==> MeanSquaredResidual(m, o) == 0.0
  {
    var sq := SquaredResiduals(m, o);
    forall j | 0 <= j < |sq|
      ensures sq[j] >= 0.0
      ensures Element(m, j) == Element(o, j) ==> sq[j] == 0.0
    {
      SquareNonNegative(Element(m, j) - Element(o, j));
    }
    RealSumNonNegative(sq);
  }

  /** The reference misfit is non-negative, and it is zero when every simulated
      value equals its observation. */
  lemma ReferenceCostNonNegative(res: seq<RealChannel>, obs: map<string, seq<real>>)
    requires Comparable(res, obs)
    ensures ReferenceCost(res, obs) >= 0.0
    ensures Matches(res, obs) ==> ReferenceCost(res, obs) == 0.0
  {
    var terms := seq(|res|, i requires 0 <= i < |res| => MeanSquaredResidual(res[i].values, obs[MeanKey(res[i].key)]));
    forall i | 0 <= i < |res|
      ensures terms[i] >= 0.0
      ensures Matches(res, obs) ==> terms[i] == 0.0
    {
      MeanSquaredResidualNonNegative(res[i].values, obs[MeanKey(res[i].key)]);
    }
    RealSumNonNegative(terms);
  }

  /** When every channel has its observation in a broadcastable shape of
      non-zero length, a NaN-free cost does not raise, is non-negative, and is
      zero when every simulated value equals its observation. */
  lemma CleanCostNonNegative(res: seq<RealChannel>, obs: map<string, seq<real>>)
    requires Comparable(res, obs)
    ensures CostFn(LiftSimulation(res), LiftObservations(obs)).Ok?
    ensures CostFn(LiftSimulation(res), LiftObservations(obs)).value >= 0.0
    ensures Matches(res, obs) ==> CostFn(LiftSimulation(res), LiftObservations(obs)).value == 0.0
  {
    CostFnIsReferenceCost(res, obs);
    ReferenceCostNonNegative(res, obs);
  }

  /** When every simulated channel is non-empty and exactly its observation,
      the cost is 0. An empty channel would give the penalty instead. */
  lemma CostZeroWhenChannelsEqualObservations(res: seq<RealChannel>, obs: map<string, seq<real>>)
    requires forall i :: 0 <= i < |res| ==> MeanKey(res[i].key) in obs && obs[MeanKey(res[i].key)] == res[i].values
    requires forall i :: 0 <= i < |res| ==> |res[i].values| > 0
    ensures CostFn(LiftSimulation(res), LiftObservations(obs)) == Ok(0.0)
  {
    assert Comparable(res, obs);
    CleanCostNonNegative(res, obs);
  }
}

=== FILE: errors.dfy ===
/** The Python exceptions the modelled code can raise, and a failure-compatible
    result type carrying either a value or one of them. */
module Errors {

  /** The exception classes that surface from the modelled functions. */
  datatype Error =
    | KeyError(key: string)     // a missing dictionary key
    | IndexError(index: int)    // a list or array index past the end
    | ValueError                // `list.index` of an absent value, `np.min` of an empty list, a shape mismatch
    | TypeError                 // iterating over something that is not a sequence
    | RuntimeError              // a bare `raise` with no active exception

  /** A value that may be absent. */
  datatype Option<+T> = None | Some(value: T)

  /** Either the value a call returns or the exception it raises. */
  datatype Result<+T> = Ok(value: T) | Err(error: Error) {

    predicate IsFailure() {
      Err?
    }

    function PropagateFailure<U>(): Result<U>
      requires Err?
    {
      Err(error)
    }

    function Extract(): T
      requires Ok?
    {
      value
    }
  }
}

=== FILE: observations.dfy ===
/** `get_obs_dict` of the tracking driver: the observation dictionary of one
    timestep, built from the site's signature tables, and how its keys line up
    with the channels the simulator produces. */
module Observations {
  import opened Errors
  import opened Samples
  import opened Cost
  import opened Params

  /** The site whose signatures are tracked (`site_no = 2`). */
  const SiteNo: string := "2"

  /** A signature table: one row per timestep, one value per incidence angle. */
  type Table = seq<seq<Sample>>

  /** The loaded signatures, keyed `<band>_<pol>_RS<site>`. */
  type Signatures = map<string, Table>

  /** `itertools.product(['Ku', 'Ka'], ['VV', 'HV', 'HH'])`, in its order. */
  const ChannelPairs: seq<(string, string)> := [
    ("Ku", "VV"), ("Ku", "HV"), ("Ku", "HH"), ("Ka", "VV"), ("Ka", "HV"), ("Ka", "HH")
  ]

  function SignatureKey(band: string, pol: string): string {
    band + "_" + pol + "_RS" + SiteNo
  }

  function ObsKey(band: string, pol: string): string {
    band + "_" + pol + "_Mean"
  }

  /** The pair's signature table has a row for `timestep`. */
  predicate Available(signatures: Signatures, timestep: nat, pair: (string, string)) {
    SignatureKey(pair.0, pair.1) in signatures && timestep < |signatures[SignatureKey(pair.0, pair.1)]|
  }

  /** The timestep's row of the pair's signature table. */
  function Row(signatures: Signatures, timestep: nat, pair: (string, string)): seq<Sample>
    requires Available(signatures, timestep, pair)
  {
    signatures[SignatureKey(pair.0, pair.1)][timestep]
  }

  /** How many pairs, from the front, have their row available: the loop of
      `get_obs_dict` raises at the first pair that does not. */
  function AvailablePrefix(signatures: Signatures, timestep: nat, pairs: seq<(string, string)>): (k: nat)
    ensures k <= |pairs|
    ensures forall j :: 0 <= j < k ==> Available(signatures, timestep, pairs[j])
    ensures k < |pairs| ==> !Available(signatures, timestep, pairs[k])
  {
    if |pairs| == 0 || !Available(signatures, timestep, pairs[0]) then 0
    else
      var k := AvailablePrefix(signatures, timestep, pairs[1..]);
      assert forall j :: 1 <= j < k + 1 ==> pairs[j] == pairs[1..][j - 1];
      k + 1
  }

  /** The six observation keys, spelled out. */
  const ObsKeys: set<string> := {"Ku_VV_Mean", "Ku_HV_Mean", "Ku_HH_Mean", "Ka_VV_Mean", "Ka_HV_Mean", "Ka_HH_Mean"}

  /** The keys `get_obs_dict` formats, pair by pair. */
  lemma ObsKeysOfPairs()
    ensures ObsKey(ChannelPairs[0].0, ChannelPairs[0].1) == "Ku_VV_Mean"
    ensures ObsKey(ChannelPairs[1].0, ChannelPairs[1].1) == "Ku_HV_Mean"
    ensures ObsKey(ChannelPairs[2].0, ChannelPairs[2].1) == "Ku_HH_Mean"
    ensures ObsKey(ChannelPairs[3].0, ChannelPairs[3].1) == "Ka_VV_Mean"
    ensures ObsKey(ChannelPairs[4].0, ChannelPairs[4].1) == "Ka_HV_Mean"
    ensures ObsKey(ChannelPairs[5].0, ChannelPairs[5].1) == "Ka_HH_Mean"
    ensures |ObsKeys| == 6
  {
  }

  /** The dictionary the loop builds when no row is missing: one assignment
      per pair, in the product order. */
  function ObsDictOf(signatures: Signatures, timestep: nat): (m: Observations)
    requires forall i :: 0 <= i < |ChannelPairs| ==> Available(signatures, timestep, ChannelPairs[i])
    ensures m.Keys == ObsKeys && |m.Keys| == 6
    ensures forall i :: 0 <= i < |ChannelPairs| ==>
      ObsKey(ChannelPairs[i].0, ChannelPairs[i].1) in m && m[ObsKey(ChannelPairs[i].0, ChannelPairs[i].1)] == Row(signatures, timestep, ChannelPairs[i])
  {
    ObsKeysOfPairs();
    var p := ChannelPairs;
    map[]
      [ObsKey(p[0].0, p[0].1) := Row(signatures, timestep, p[0])]
      [ObsKey(p[1].0, p[1].1) := Row(signatures, timestep, p[1])]
      [ObsKey(p[2].0, p[2].1) := Row(signatures, timestep, p[2])]
      [ObsKey(p[3].0, p[3].1) := Row(signatures, timestep, p[3])]
      [ObsKey(p[4].0, p[4].1) := Row(signatures, timestep, p[4])]
      [ObsKey(p[5].0, p[5].1) := Row(signatures, timestep, p[5])]
  }

  /** `get_obs_dict(signatures, timestep)`, on tables already cut to the
      tracking window: for every (band, pol) pair in the
      product order, the timestep's row of table `<band>_<pol>_RS2` under key
      `<band>_<pol>_Mean`. The first missing table is a KeyError, the first
      table without that row an IndexError. */
  function GetObsDict(signatures: Signatures, timestep: nat): (r: Result<Observations>)
    ensures r.Ok? <==> forall i :: 0 <= i < |ChannelPairs| ==> Available(signatures, timestep, ChannelPairs[i])
    ensures r.Err? ==> exists k :: 0 <= k < |ChannelPairs| && !Available(signatures, timestep, ChannelPairs[k])
                                   && (forall j :: 0 <= j < k ==> Available(signatures, timestep, ChannelPairs[j]))
                                   && r.error == (if SignatureKey(ChannelPairs[k].0, ChannelPairs[k].1) !in signatures
                                                  then KeyError(SignatureKey(ChannelPairs[k].0, ChannelPairs[k].1))
                                                  else IndexError(timestep))
    ensures r.Ok? ==> r.value.Keys == ObsKeys && |r.value.Keys| == 6
    ensures r.Ok? ==> forall i :: 0 <= i < |ChannelPairs| ==>
      ObsKey(ChannelPairs[i].0, ChannelPairs[i].1) in r.value && r.value[ObsKey(ChannelPairs[i].0, ChannelPairs[i].1)] == Row(signatures, timestep, ChannelPairs[i])
  {
    var k := AvailablePrefix(signatures, timestep, ChannelPairs);
    if k < |ChannelPairs| then
      var sk := SignatureKey(ChannelPairs[k].0, ChannelPairs[k].1);
      Err(if sk !in signatures then KeyError(sk) else IndexError(timestep))
    else
      Ok(ObsDictOf(signatures, timestep))
  }

  lemma MeanKeysOfRunModel()
    ensures MeanKey("Ka_HV") == "Ka_HV_Mean"
    ensures MeanKey("Ku_HV") == "Ku_HV_Mean"
    ensures MeanKey("Ka_HH") == "Ka_HH_Mean"
    ensures MeanKey("Ku_HH") == "Ku_HH_Mean"
  {
    assert "Ka_HV" + "_Mean" == "Ka_HV_Mean";
    assert "Ku_HV" + "_Mean" == "Ku_HV_Mean";
    assert "Ka_HH" + "_Mean" == "Ka_HH_Mean";
    assert "Ku_HH" + "_Mean" == "Ku_HH_Mean";
  }

  /** Every channel `run_model` produces finds its observation in a successful
      `get_obs_dict`, and none of them reads a co-polarised `VV` entry. */
  lemma RunModelKeysAreObserved()
    ensures forall k :: k in RunModelKeys() ==> MeanKey(k) in ObsKeys
    ensures forall k :: k in RunModelKeys() ==> MeanKey(k) != "Ku_VV_Mean" && MeanKey(k) != "Ka_VV_Mean"
  {
    RunModelKeysValues();
    MeanKeysOfRunModel();
  }

  /** For a simulation whose channels are those of `run_model`, the `VV`
      observations never influence the cost. */
  lemma VVObservationsIgnored(res: Simulation, obs1: Observations, obs2: Observations)
    requires forall i :: 0 <= i < |res| ==> res[i].key in RunModelKeys()
    requires forall k :: k in obs1 && k != "Ku_VV_Mean" && k != "Ka_VV_Mean" ==> k in obs2 && obs2[k] == obs1[k]
    requires forall k :: k in obs2 && k != "Ku_VV_Mean" && k != "Ka_VV_Mean" ==> k in obs1
    ensures CostFn(res, obs1) == CostFn(res, obs2)
  {
    RunModelKeysAreObserved();
    CostReadsOnlyMeanKeys(res, obs1, obs2);
  }
}

=== FILE: params.dfy ===
/** The fixed order of the twelve fitted parameters: `print_params` names them,
    `run_from_params` hands them to the simulator's keyword arguments, and
    `calculate_cost` chains the simulator with the misfit. */
module Params {
  import opened Errors
  import opened Samples
  import opened Cost

  /** The number of fitted parameters. */
  const ParamCount: nat := 12

  /** The name of position `i` of a parameter vector. */
  const ParamNames: seq<string> := [
    "snow_depth", "ice_thickness", "ice_salinity", "ice_density", "temp", "snow_CL_e3",
    "ice_CL_e3", "snow_density", "snow_roughness_rms", "snow_roughness_CL", "ice_roughness_rms", "ice_roughness_CL"
  ]

  lemma ParamNamesDistinct()
    ensures |ParamNames| == ParamCount
    ensures forall i, j :: 0 <= i < j < |ParamNames| ==> ParamNames[i] != ParamNames[j]
  {
  }

  /** `print_params`: the dictionary from each parameter name to its value.
      A vector shorter than twelve fails on its first missing index. It is also
      applied to the bounds list, hence the element type is generic. */
  function PrintParams<T>(params: seq<T>): (r: Result<map<string, T>>)
    ensures r.Err? <==> |params| < ParamCount
    ensures r.Err? ==> r.error == IndexError(|params|)
    ensures r.Ok? ==> r.value.Keys == set i | 0 <= i < ParamCount :: ParamNames[i]
    ensures r.Ok? ==> |r.value.Keys| == ParamCount
    ensures r.Ok? ==> forall i :: 0 <= i < ParamCount ==> r.value[ParamNames[i]] == params[i]
  {
    if |params| < ParamCount then Err(IndexError(|params|))
    else
      ParamNamesDistinct();
      var m := map i | 0 <= i < ParamCount :: ParamNames[i] := params[i];
      assert m.Keys == set i | 0 <= i < ParamCount :: ParamNames[i];
      assert |m.Keys| == ParamCount by {
        DistinctImageSize(ParamNames);
      }
      Ok(m)
  }

  /** Twelve distinct names make a set of twelve. */
  lemma {:induction false} DistinctImageSize(names: seq<string>)
    requires forall i, j :: 0 <= i < j < |names| ==> names[i] != names[j]
    ensures |set i | 0 <= i < |names| :: names[i]| == |names|
  {
    if |names| > 0 {
      var front := names[..|names| - 1];
      DistinctImageSize(front);
      var s := set i | 0 <= i < |names| :: names[i];
      var f := set i | 0 <= i < |front| :: front[i];
      assert s == f + {names[|names| - 1]};
      assert names[|names| - 1] !in f;
    }
  }

  /** The keyword arguments of the simulator entry point `run_model`. */
  datatype ModelArgs = ModelArgs(
    snowDepth: real,
    iceThickness: real,
    iceSalinity: real,
    iceDensity: real,
    temp: real,
    snowClE3: real,
    iceClE3: real,
    snowDensity: real,
    snowSal: real,
    snowRoughnessRms: real,
    snowRoughnessCl: real,
    iceRoughnessRms: real,
    iceRoughnessCl: real)

  /** The value bound to the keyword argument called `name`, if there is one. */
  function Argument(args: ModelArgs, name: string): Option<real> {
    if name == "snow_depth" then Some(args.snowDepth)
    else if name == "ice_thickness" then Some(args.iceThickness)
    else if name == "ice_salinity" then Some(args.iceSalinity)
    else if name == "ice_density" then Some(args.iceDensity)
    else if name == "temp" then Some(args.temp)
    else if name == "snow_CL_e3" then Some(args.snowClE3)
    else if name == "ice_CL_e3" then Some(args.iceClE3)
    else if name == "snow_density" then Some(args.snowDensity)
    else if name == "snow_sal" then Some(args.snowSal)
    else if name == "snow_roughness_rms" then Some(args.snowRoughnessRms)
    else if name == "snow_roughness_CL" then Some(args.snowRoughnessCl)
    else if name == "ice_roughness_rms" then Some(args.iceRoughnessRms)
    else if name == "ice_roughness_CL" then Some(args.iceRoughnessCl)
    else None
  }

  /** `run_from_params` up to the simulator call: the keyword arguments built
      from positions 0..11, with the snow salinity fixed at 0. */
  function RunFromParams(params: seq<real>): (r: Result<ModelArgs>)
    ensures r.Err? <==> |params| < ParamCount
    ensures r.Err? ==> r.error == IndexError(|params|)
    ensures r.Ok? ==> r.value.snowSal == 0.0
  {
    if |params| < ParamCount then Err(IndexError(|params|))
    else Ok(ModelArgs(
      snowDepth := params[0],
      iceThickness := params[1],
      iceSalinity := params[2],
      iceDensity := params[3],
      temp := params[4],
      snowClE3 := params[5],
      iceClE3 := params[6],
      snowDensity := params[7],
      snowSal := 0.0,
      snowRoughnessRms := params[8],
      snowRoughnessCl := params[9],
      iceRoughnessRms := params[10],
      iceRoughnessCl := params[11]))
  }

  /** The fitted arguments back in parameter-vector order (the snow salinity is not fitted). */
  function ArgsToParams(args: ModelArgs): (p: seq<real>)
    ensures |p| == ParamCount
  {
    [args.snowDepth, args.iceThickness, args.iceSalinity, args.iceDensity, args.temp, args.snowClE3,
     args.iceClE3, args.snowDensity, args.snowRoughnessRms, args.snowRoughnessCl, args.iceRoughnessRms, args.iceRoughnessCl]
  }

  /** Position `i` of the vector reaches the simulator argument that
      `print_params` calls `ParamNames[i]`, and `snow_sal` is 0: the two
      functions agree on the meaning of every position. */
  lemma RunFromParamsMatchesNames(params: seq<real>)
    requires |params| >= ParamCount
    ensures forall i :: 0 <= i < ParamCount ==>
      Argument(RunFromParams(params).value, ParamNames[i]) == Some(PrintParams(params).value[ParamNames[i]])
    ensures Argument(RunFromParams(params).value, "snow_sal") == Some(0.0)
  {
    var args := RunFromParams(params).value;
    var named := PrintParams(params).value;
    forall i | 0 <= i < ParamCount
      ensures Argument(args, ParamNames[i]) == Some(named[ParamNames[i]])
    {
      // A split on the twelve positions: the lemma holds without it, but the
      // solver then needs about twice the work.
      assert Argument(args, ParamNames[i]) == Some(params[i]) by {
        if i == 0 {} else if i == 1 {} else if i == 2 {} else if i == 3 {} else if i == 4 {} else if i == 5 {}
        else if i == 6 {} else if i == 7 {} else if i == 8 {} else if i == 9 {} else if i == 10 {} else {}
      }
    }
  }

  /** Building the arguments and reading them back gives the first twelve
      positions; positions past twelve are never read. */
  lemma RunFromParamsRoundTrip(params: seq<real>)
    requires |params| >= ParamCount
    ensures ArgsToParams(RunFromParams(params).value) == params[..ParamCount]
  {
  }

  /** Every argument list with zero snow salinity is what `RunFromParams` builds
      from its own twelve-vector. */
  lemma ParamsFromArgsRoundTrip(args: ModelArgs)
    requires args.snowSal == 0.0
    ensures RunFromParams(ArgsToParams(args)) == Ok(args)
  {
  }

  /** The simulator, kept abstract: arguments to simulated channels, or the
      exception the simulation raises. */
  type Simulator = ModelArgs -> Result<Simulation>

  /** `calculate_cost`: simulate the vector, then compare with the observations.
      A simulator failure is not caught: it is the cost's result. */
  function CalculateCost(simulate: Simulator, params: seq<real>, obs: Observations): (r: Result<real>)
    ensures |params| < ParamCount ==> r == Err(IndexError(|params|))
    ensures |params| >= ParamCount && simulate(RunFromParams(params).value).Err? ==>
              r == Err(simulate(RunFromParams(params).value).error)
    ensures |params| >= ParamCount && simulate(RunFromParams(params).value).Ok? ==>
              r == CostFn(simulate(RunFromParams(params).value).value, obs)
  {
    var args :- RunFromParams(params);
    var sim :- simulate(args);
    CostFn(sim, obs)
  }

  /** Only the first twelve positions affect the cost. */
  lemma CalculateCostReadsTwelve(simulate: Simulator, p1: seq<real>, p2: seq<real>, obs: Observations)
    requires |p1| >= ParamCount && |p2| >= ParamCount
    requires p1[..ParamCount] == p2[..ParamCount]
    ensures CalculateCost(simulate, p1, obs) == CalculateCost(simulate, p2, obs)
  {
    RunFromParamsRoundTrip(p1);
    RunFromParamsRoundTrip(p2);
    ParamsFromArgsRoundTrip(RunFromParams(p1).value);
    ParamsFromArgsRoundTrip(RunFromParams(p2).value);
  }

  /** The channel keys `run_model` produces: band `Ka`/`Ku`, incident `H`,
      received `V`/`H`, in the loop's order. */
  function RunModelKeys(): (keys: seq<string>)
    ensures |keys| == 4
  {
    var bands := ["Ka", "Ku"];
    var pols := ["V", "H"];
    seq(4, i requires 0 <= i < 4 => bands[i % 2] + "_" + "H" + pols[i / 2])
  }

  lemma RunModelKeysValues()
    ensures RunModelKeys() == ["Ka_HV", "Ku_HV", "Ka_HH", "Ku_HH"]
  {
    var keys := RunModelKeys();
    assert keys[0] == "Ka" + "_" + "H" + "V" == "Ka_HV";
    assert keys[1] == "Ku" + "_" + "H" + "V" == "Ku_HV";
    assert keys[2] == "Ka" + "_" + "H" + "H" == "Ka_HH";
    assert keys[3] == "Ku" + "_" + "H" + "H" == "Ku_HH";
  }
}

=== FILE: samples.dfy ===
/** The slice of numpy the misfit uses, over exact reals plus NaN: elementwise
    subtraction with broadcasting, squaring, `np.sum` and `np.mean`. */
module Samples {
  import opened Errors

  /** A float64 value: a number or NaN (infinities and rounding are not modelled). */
  datatype Sample = Num(v: real) | NaN

  function Add(a: Sample, b: Sample): Sample {
    if a.Num? && b.Num? then Num(a.v + b.v) else NaN
  }

  function Sub(a: Sample, b: Sample): Sample {
    if a.Num? && b.Num? then Num(a.v - b.v) else NaN
  }

  function Square(a: Sample): Sample {
    if a.Num? then Num(a.v * a.v) else NaN
  }

  predicate HasNaN(s: seq<Sample>) {
    exists i :: 0 <= i < |s| && s[i].NaN?
  }

  /** `np.sum`: adds left to right from 0.0; one NaN makes the whole sum NaN. */
  function Sum(s: seq<Sample>): (r: Sample)
    ensures r.NaN? <==> HasNaN(s)
  {
    if |s| == 0 then Num(0.0)
    else
      var front := Sum(s[..|s| - 1]);
      assert forall i :: 0 <= i < |s| - 1 ==> s[..|s| - 1][i] == s[i];
      Add(front, s[|s| - 1])
  }

  /** `np.mean`: the sum divided by the count; the mean of no values is NaN. */
  function Mean(s: seq<Sample>): (r: Sample)
    ensures r.NaN? <==> |s| == 0 || HasNaN(s)
  {
    if |s| == 0 then NaN
    else match Sum(s)
      case NaN => NaN
      case Num(t) => Num(t / |s| as real)
  }

  /** Elementwise squares: `d ** 2`. */
  function Squares(d: seq<Sample>): (r: seq<Sample>)
    ensures |r| == |d|
    ensures forall i :: 0 <= i < |d| ==> r[i] == Square(d[i])
  {
    seq(|d|, i requires 0 <= i < |d| => Square(d[i]))
  }

  /** numpy broadcasting of two 1-D arrays: equal lengths, or one of length 1. */
  predicate Broadcastable(m: nat, n: nat) {
    m == n || m == 1 || n == 1
  }

  function BroadcastLength(m: nat, n: nat): nat
    requires Broadcastable(m, n)
  {
    if m == n then m else if m == 1 then n else m
  }

  /** Element `i` of an operand after broadcasting: a length-1 array repeats its value. */
  function Element<T>(s: seq<T>, i: nat): T
    requires |s| == 1 || i < |s|
  {
    if |s| == 1 then s[0] else s[i]
  }

  /** `model - obs` for two 1-D arrays; shapes that do not broadcast raise a ValueError. */
  function Difference(model: seq<Sample>, obs: seq<Sample>): (r: Result<seq<Sample>>)
    ensures r.Ok? <==> Broadcastable(|model|, |obs|)
    ensures r.Err? ==> r.error == ValueError
    ensures r.Ok? ==> |r.value| == BroadcastLength(|model|, |obs|)
    ensures r.Ok? ==> forall i :: 0 <= i < |r.value| ==> r.value[i] == Sub(Element(model, i), Element(obs, i))
    ensures r.Ok? && |model| == |obs| ==> forall i :: 0 <= i < |model| ==> r.value[i] == Sub(model[i], obs[i])
  {
    if !Broadcastable(|model|, |obs|) then Err(ValueError)
    else
      var n := BroadcastLength(|model|, |obs|);
      Ok(seq(n, i requires 0 <= i < n => Sub(Element(model, i), Element(obs, i))))
  }

  /** When the shapes broadcast, a NaN in either operand reaches the
      difference, or the difference is empty. */
  lemma DifferenceKeepsNaN(model: seq<Sample>, obs: seq<Sample>)
    requires Broadcastable(|model|, |obs|)
    requires HasNaN(model) || HasNaN(obs)
    ensures |Difference(model, obs).value| == 0 || HasNaN(Difference(model, obs).value)
  {
    var d := Difference(model, obs).value;
    var n := BroadcastLength(|model|, |obs|);
    if n > 0 {
      if HasNaN(model) {
        var j :| 0 <= j < |model| && model[j].NaN?;
        var k := if |model| == 1 then 0 else j;
        assert d[k] == Sub(Element(model, k), Element(obs, k));
      } else {
        var j :| 0 <= j < |obs| && obs[j].NaN?;
        var k := if |obs| == 1 then 0 else j;
        assert d[k] == Sub(Element(model, k), Element(obs, k));
      }
    }
  }

  /** Embeds NaN-free data. */
  function Lift(s: seq<real>): (r: seq<Sample>)
    ensures |r| == |s| && !HasNaN(r)
    ensures forall i :: 0 <= i < |s| ==> r[i] == Num(s[i])
  {
    seq(|s|, i requires 0 <= i < |s| => Num(s[i]))
  }

  /** The plain sum of reals, added left to right. */
  function RealSum(t: seq<real>): real {
    if |t| == 0 then 0.0 else RealSum(t[..|t| - 1]) + t[|t| - 1]
  }

  /** Summing NaN-free samples is summing their values. */
  lemma {:induction false} SumOfNums(s: seq<Sample>, t: seq<real>)
    requires |s| == |t|
    requires forall i :: 0 <= i < |s| ==> s[i] == Num(t[i])
    ensures Sum(s) == Num(RealSum(t))
  {
    if |s| > 0 {
      SumOfNums(s[..|s| - 1], t[..|t| - 1]);
    }
  }

  /** A sum of non-negative reals is non-negative, and it is zero exactly when
      every term is zero. */
  lemma {:induction false} RealSumNonNegative(t: seq<real>)
    requires forall i :: 0 <= i < |t| ==> t[i] >= 0.0
    ensures RealSum(t) >= 0.0
    ensures RealSum(t) == 0.0 <==> forall i :: 0 <= i < |t| ==> t[i] == 0.0
  {
    if |t| > 0 {
      var front := t[..|t| - 1];
      assert forall i :: 0 <= i < |front| ==> front[i] == t[i];
      RealSumNonNegative(front);
    }
  }
}

=== FILE: take_step.dfy ===
/** The bounded step proposer `MyTakeStep`: every bounded coordinate is moved by
    a uniform draw from `[-s*r_i, s*r_i)`, where `r_i` is the width of its
    interval and `s` the stepsize. The random numbers are explicit inputs. */
module TakeStep {
  import opened Errors
  import opened Bounds

  /** The stepsize `MyTakeStep` uses when none is given. */
  const DefaultStepsize: real := 1.0

  function Abs(x: real): real {
    if x < 0.0 then -x else x
  }

  /** `abs(b[1] - b[0])`: the width of one interval. */
  function Width(b: Bound): real {
    Abs(b.hi - b.lo)
  }

  /** A value of numpy's unit generator: `0 <= u < 1`. */
  predicate IsUnitDraw(u: real) {
    0.0 <= u < 1.0
  }

  /** One unit draw per bounded dimension, in the order the loop consumes them. */
  predicate ValidDraws(draws: seq<real>, n: nat) {
    |draws| == n && forall i :: 0 <= i < n ==> IsUnitDraw(draws[i])
  }

  /** `np.random.uniform(low, high)` for the unit draw `u`. */
  function Uniform(low: real, high: real, u: real): real {
    low + (high - low) * u
  }

  /** The perturbation added to a coordinate bounded by `b`; it depends on the
      interval and the stepsize only, never on the coordinate itself. */
  function Perturbation(b: Bound, stepsize: real, u: real): real {
    Uniform(-Width(b) * stepsize, Width(b) * stepsize, u)
  }

  /** A perturbation never exceeds the stepsize times the interval width. */
  lemma PerturbationBounded(b: Bound, stepsize: real, u: real)
    requires IsUnitDraw(u)
    ensures Abs(Perturbation(b, stepsize, u)) <= Abs(stepsize) * Width(b)
  {
    var w := Width(b);
    var k := 2.0 * u - 1.0;
    assert -1.0 <= k < 1.0;
    assert Perturbation(b, stepsize, u) == (w * stepsize) * k;
    assert Abs(w * stepsize) == w * Abs(stepsize);
    AbsProductBounded(w * stepsize, k);
  }

  lemma AbsProductBounded(a: real, k: real)
    requires -1.0 <= k <= 1.0
    ensures Abs(a * k) <= Abs(a)
  {
    if a >= 0.0 {
      if k >= 0.0 { assert a * k <= a * 1.0; } else { assert a * (-k) <= a * 1.0; }
    } else {
      if k >= 0.0 { assert (-a) * k <= (-a) * 1.0; } else { assert (-a) * (-k) <= (-a) * 1.0; }
    }
  }

  /** Every offset in `[-s*w, s*w)` is produced by some unit draw, so the step
      covers its whole range (for a positive stepsize and a non-degenerate interval). */
  lemma PerturbationCoversRange(b: Bound, stepsize: real, d: real)
    requires stepsize > 0.0 && Width(b) > 0.0
    requires -Width(b) * stepsize <= d < Width(b) * stepsize
    ensures exists u :: IsUnitDraw(u) && Perturbation(b, stepsize, u) == d
  {
    var h := Width(b) * stepsize;
    assert h > 0.0;
    var u := (d + h) / (2.0 * h);
    assert 0.0 <= u by {
      assert d + h >= 0.0;
    }
    assert u < 1.0 by {
      assert d + h < 2.0 * h;
    }
    assert (2.0 * h) * u == d + h;
    assert Perturbation(b, stepsize, u) == -h + (2.0 * h) * u;
  }

  /** `MyTakeStep`: the step proposer holding its bounds list and stepsize. */
  datatype MyTakeStep = MyTakeStep(bounds: seq<Bound>, stepsize: real) {

    /** The coordinate-wise rule of `__call__`: coordinate `i` is perturbed when
        `i` indexes a bound and left alone otherwise; an index past the end of
        `x` is an IndexError. There is no clipping against the bounds. */
    function Step(x: seq<real>, draws: seq<real>): (r: Result<seq<real>>)
      requires ValidDraws(draws, |bounds|)
      ensures r.Err? <==> |bounds| > |x|
      ensures r.Err? ==> r.error == IndexError(|x|)
    {
      if |bounds| > |x| then Err(IndexError(|x|))
      else Ok(seq(|x|, i requires 0 <= i < |x| =>
        if i < |bounds| then x[i] + Perturbation(bounds[i], stepsize, draws[i]) else x[i]))
    }

    /** `__call__`: updates `x` coordinate by coordinate as the source loop
        does and returns the updated vector. */
    method Call(x: seq<real>, draws: seq<real>) returns (r: Result<seq<real>>)
      requires ValidDraws(draws, |bounds|)
      ensures r == Step(x, draws)
      ensures r.Ok? ==> |r.value| == |x|
      ensures r.Ok? ==> forall i :: 0 <= i < |bounds| ==> r.value[i] == x[i] + Perturbation(bounds[i], stepsize, draws[i])
      ensures r.Ok? ==> forall i :: |bounds| <= i < |x| ==> r.value[i] == x[i]
    {
      var y := x;
      var i := 0;
      while i < |bounds|
        invariant 0 <= i <= |bounds| && i <= |x|
        invariant |y| == |x|
        invariant forall j :: 0 <= j < i ==> y[j] == x[j] + Perturbation(bounds[j], stepsize, draws[j])
        invariant forall j :: i <= j < |x| ==> y[j] == x[j]
      {
        if i >= |y| {
          return Err(IndexError(i));
        }
        y := y[i := y[i] + Perturbation(bounds[i], stepsize, draws[i])];
        i := i + 1;
      }
      r := Ok(y);
      assert r.value == Step(x, draws).value;
    }
  }

  /** A step proposer built with the default stepsize. */
  function NewTakeStep(bounds: seq<Bound>): (t: MyTakeStep)
    ensures t.bounds == bounds && t.stepsize == 1.0
  {
    MyTakeStep(bounds, DefaultStepsize)
  }

  /** Each bounded coordinate moves by at most `|stepsize| * width`, and the
      coordinates past the end of the bounds list do not move. */
  lemma StepDisplacementBounded(t: MyTakeStep, x: seq<real>, draws: seq<real>)
    requires ValidDraws(draws, |t.bounds|)
    requires t.Step(x, draws).Ok?
    ensures |t.Step(x, draws).value| == |x|
    ensures forall i :: 0 <= i < |t.bounds| ==> Abs(t.Step(x, draws).value[i] - x[i]) <= Abs(t.stepsize) * Width(t.bounds[i])
    ensures forall i :: |t.bounds| <= i < |x| ==> t.Step(x, draws).value[i] == x[i]
  {
    var y := t.Step(x, draws).value;
    forall i | 0 <= i < |t.bounds|
      ensures Abs(y[i] - x[i]) <= Abs(t.stepsize) * Width(t.bounds[i])
    {
      PerturbationBounded(t.bounds[i], t.stepsize, draws[i]);
    }
  }

  /** With a zero stepsize the proposal is the input vector. */
  lemma ZeroStepIsIdentity(t: MyTakeStep, x: seq<real>, draws: seq<real>)
    requires ValidDraws(draws, |t.bounds|)
    requires t.stepsize == 0.0 && |t.bounds| <= |x|
    ensures t.Step(x, draws) == Ok(x)
  {
    var y := t.Step(x, draws).value;
    forall i | 0 <= i < |t.bounds|
      ensures y[i] == x[i]
    {
      assert Perturbation(t.bounds[i], 0.0, draws[i]) == 0.0;
    }
    assert y == x;
  }

  /** The offset applied to coordinate `i` is the same whatever the starting
      vector: it is a function of the bound, the stepsize and the draw. */
  lemma StepOffsetIndependentOfX(t: MyTakeStep, x1: seq<real>, x2: seq<real>, draws: seq<real>, i: nat)
    requires ValidDraws(draws, |t.bounds|)
    requires |t.bounds| <= |x1| && |t.bounds| <= |x2| && i < |t.bounds|
    ensures t.Step(x1, draws).value[i] - x1[i] == t.Step(x2, draws).value[i] - x2[i]
  {
  }

  /** The proposer does not clip: a point on the upper end of its interval,
      given the draw 0.75 (an offset of +5 on a width of 10), is moved
      outside the bounds. */
  lemma StepCanLeaveBounds()
    ensures var t := NewTakeStep([Bound(0.0, 10.0)]);
            var r := t.Step([10.0], [0.75]);
            r == Ok([15.0]) && !CheckValidBounds(r.value, t.bounds)
  {
    var t := NewTakeStep([Bound(0.0, 10.0)]);
    assert Perturbation(Bound(0.0, 10.0), 1.0, 0.75) == 5.0;
    assert t.Step([10.0], [0.75]).value == [15.0];
  }
}

=== FILE: track.dfy ===
/** The tracking driver: pick the best parameter vector out of stored
    basin-hopping runs, then refit it round after round against successive
    observations, each round starting where the previous one stopped. */
module Track {
  import opened Errors
  import opened Samples
  import opened Bounds
  import opened Cost
  import opened Params
  import opened Observations

  // ---------------------------------------------------------------------------
  // Selecting the best stored vector

  /** One row of a stored run: the `(x, f, datetime)` the basin-hopping callback appends. */
  datatype TraceEntry = TraceEntry(params: seq<real>, cost: real, stamp: int)

  /** `np.min` of a cost column. For an empty column pandas answers NaN and the
      `list.index` that follows raises ValueError; `np.min` of an empty list
      raises ValueError itself. Either way the selection stops with a
      ValueError, which the model reports here. */
  function MinCost(costs: seq<real>): (r: Result<real>)
    ensures r.Err? <==> |costs| == 0
    ensures r.Err? ==> r.error == ValueError
    ensures r.Ok? ==> r.value in costs
    ensures r.Ok? ==> forall j :: 0 <= j < |costs| ==> r.value <= costs[j]
  {
    if |costs| == 0 then Err(ValueError)
    else match MinCost(costs[1..])
      case Err(_) => Ok(costs[0])
      case Ok(m) =>
        assert forall j :: 1 <= j < |costs| ==> costs[j] == costs[1..][j - 1];
        Ok(if costs[0] <= m then costs[0] else m)
  }

  /** `list.index(v)`: the first position holding `v`; an absent value is a ValueError. */
  function IndexOf(xs: seq<real>, v: real): (r: Result<nat>)
    ensures r.Err? <==> v !in xs
    ensures r.Err? ==> r.error == ValueError
    ensures r.Ok? ==> r.value < |xs| && xs[r.value] == v
    ensures r.Ok? ==> forall j :: 0 <= j < r.value ==> xs[j] != v
  {
    if |xs| == 0 then Err(ValueError)
    else if xs[0] == v then Ok(0)
    else match IndexOf(xs[1..], v)
      case Err(e) => Err(e)
      case Ok(k) =>
        assert forall j :: 1 <= j < k + 1 ==> xs[j] == xs[1..][j - 1];
        Ok(k + 1)
  }

  /** `k` is the first position holding the smallest value. */
  predicate IsFirstArgMin(xs: seq<real>, k: int) {
    && 0 <= k < |xs|
    && (forall j :: 0 <= j < |xs| ==> xs[k] <= xs[j])
    && (forall j :: 0 <= j < k ==> xs[j] > xs[k])
  }

  /** `list.index(np.min(xs))` is the first position of the minimum. */
  lemma IndexOfMinIsFirstArgMin(xs: seq<real>)
    requires |xs| > 0
    ensures IndexOf(xs, MinCost(xs).value).Ok?
    ensures IsFirstArgMin(xs, IndexOf(xs, MinCost(xs).value).value)
  {
  }

  /** A first position of the minimum is unique. */
  lemma FirstArgMinUnique(xs: seq<real>, k1: int, k2: int)
    requires IsFirstArgMin(xs, k1) && IsFirstArgMin(xs, k2)
    ensures k1 == k2
  {
    assert xs[k1] == xs[k2];
  }

  function Costs(run: seq<TraceEntry>): (costs: seq<real>)
    ensures |costs| == |run|
    ensures forall i :: 0 <= i < |run| ==> costs[i] == run[i].cost
  {
    seq(|run|, i requires 0 <= i < |run| => run[i].cost)
  }

  /** The per-run selection: the first row holding the minimum of the cost
      column, whose cost and parameters the driver keeps. An empty run is a
      ValueError. */
  function BestOfRun(run: seq<TraceEntry>): (r: Result<TraceEntry>)
    ensures r.Err? <==> |run| == 0
    ensures r.Err? ==> r.error == ValueError
    ensures r.Ok? ==> forall j :: 0 <= j < |run| ==> r.value.cost <= run[j].cost
    ensures r.Ok? ==> exists k :: IsFirstArgMin(Costs(run), k) && r.value == run[k]
  {
    var costs := Costs(run);
    match MinCost(costs)
    case Err(e) => Err(e)
    case Ok(m) =>
      IndexOfMinIsFirstArgMin(costs);
      var k := IndexOf(costs, m).value;
      Ok(run[k])
  }

  /** The per-run minima, in run order, or the error of the first empty run. */
  function RunBests(runs: seq<seq<TraceEntry>>): (r: Result<seq<TraceEntry>>)
    ensures r.Ok? <==> forall i :: 0 <= i < |runs| ==> |runs[i]| > 0
    ensures r.Err? ==> r.error == ValueError
    ensures r.Ok? ==> |r.value| == |runs| && forall i :: 0 <= i < |runs| ==> r.value[i] == BestOfRun(runs[i]).value
  {
    if |runs| == 0 then Ok([])
    else match BestOfRun(runs[0])
      case Err(e) => Err(e)
      case Ok(b) =>
        assert forall i :: 1 <= i < |runs| ==> runs[i] == runs[1..][i - 1];
        match RunBests(runs[1..])
        case Err(e) => Err(e)
        case Ok(bs) => Ok([b] + bs)
  }

  /** The selection across runs: `total_min_cost` is the minimum of the per-run
      minima and `total_min_params` the parameters of the first run attaining it. */
  function SelectBest(runs: seq<seq<TraceEntry>>): (r: Result<TraceEntry>)
    ensures r.Ok? <==> |runs| > 0 && forall i :: 0 <= i < |runs| ==> |runs[i]| > 0
    ensures r.Err? ==> r.error == ValueError
    ensures r.Ok? ==> exists q :: IsFirstArgMin(Costs(RunBests(runs).value), q) && r.value == RunBests(runs).value[q]
  {
    match RunBests(runs)
    case Err(e) => Err(e)
    case Ok(bests) =>
      var costs := Costs(bests);
      match MinCost(costs)
      case Err(e) => Err(e)
      case Ok(m) =>
        IndexOfMinIsFirstArgMin(costs);
        var q := IndexOf(costs, m).value;
        Ok(bests[q])
  }

  /** The selected cost is the smallest of all rows of all runs. */
  lemma SelectBestIsGlobalMinimum(runs: seq<seq<TraceEntry>>)
    requires SelectBest(runs).Ok?
    ensures forall q, j :: 0 <= q < |runs| && 0 <= j < |runs[q]| ==> SelectBest(runs).value.cost <= runs[q][j].cost
  {
    var bests := RunBests(runs).value;
    var costs := Costs(bests);
    var q :| IsFirstArgMin(costs, q) && SelectBest(runs).value == bests[q];
    forall p, i | 0 <= p < |runs| && 0 <= i < |runs[p]|
      ensures SelectBest(runs).value.cost <= runs[p][i].cost
    {
      assert costs[q] <= costs[p];
      assert BestOfRun(runs[p]).value.cost <= runs[p][i].cost;
    }
  }

  /** The selected vector is stored in some run next to the selected cost: at
      the first row holding that run's minimum, in the first run whose minimum
      is the overall one. */
  lemma SelectBestIsStored(runs: seq<seq<TraceEntry>>)
    requires SelectBest(runs).Ok?
    ensures exists q, j :: 0 <= q < |runs| && IsFirstArgMin(Costs(runs[q]), j)
                           && SelectBest(runs).value == runs[q][j]
                           && (forall p :: 0 <= p < q ==> BestOfRun(runs[p]).value.cost > runs[q][j].cost)
  {
    var bests := RunBests(runs).value;
    var costs := Costs(bests);
    var q :| IsFirstArgMin(costs, q) && SelectBest(runs).value == bests[q];
    var j :| IsFirstArgMin(Costs(runs[q]), j) && bests[q] == runs[q][j];
    assert costs[q] == runs[q][j].cost;
    forall p | 0 <= p < q
      ensures BestOfRun(runs[p]).value.cost > runs[q][j].cost
    {
      assert costs[p] == bests[p].cost && bests[p] == BestOfRun(runs[p]).value;
    }
  }

  // ---------------------------------------------------------------------------
  // Warm-started refinement

  /** What the local minimiser reports: its point `x` and cost `fun`. */
  datatype Fit = Fit(x: seq<real>, fun: real)

  /** The local minimiser (L-BFGS-B on `calculate_cost`), kept abstract: start
      point, box bounds and the round's observations to a fit, or the
      exception the minimisation raises. */
  type Minimiser = (seq<real>, seq<Bound>, Cost.Observations) -> Result<Fit>

  /** The number of tracking rounds. */
  const Rounds: nat := 25

  /** `initial_bounds` of the tracking driver, in parameter order. */
  const InitialBounds: seq<Bound> := [
    Bound(0.08, 0.4),   // snow depth
    Bound(0.6, 1.5),    // ice thickness
    Bound(0.1, 3.0),    // ice salinity
    Bound(790.0, 920.0),// ice density
    Bound(255.0, 270.0),// temperature
    Bound(0.1, 0.4),    // snow correlation length
    Bound(0.1, 1.0),    // ice correlation length
    Bound(250.0, 400.0),// snow density
    Bound(0.3, 1.5),    // snow roughness rms
    Bound(8.0, 120.0),  // snow roughness correlation length
    Bound(0.1, 2.3),    // ice roughness rms
    Bound(10.0, 150.0)  // ice roughness correlation length
  ]

  /** One interval per fitted parameter, each non-empty, and `print_params`
      accepts the list. */
  lemma InitialBoundsWellFormed()
    ensures |InitialBounds| == ParamCount
    ensures forall i :: 0 <= i < |InitialBounds| ==> InitialBounds[i].lo <= InitialBounds[i].hi
    ensures PrintParams(InitialBounds).Ok?
  {
  }

  /** Where each round's observation dictionary comes from: for the tracking
      driver, `get_obs_dict` of the signature tables cut to the window, at
      that timestep. */
  type ObsSource = nat -> Result<Cost.Observations>

  function SignatureSource(signatures: Signatures): (source: ObsSource)
    ensures forall k: nat :: source(k) == GetObsDict(signatures, k)
    ensures forall k: nat :: source(k).Ok? ==> source(k).value.Keys == ObsKeys
    ensures forall k: nat, j: nat :: j <= k && source(k).Ok? ==> source(j).Ok?
  {
    (k: nat) => GetObsDict(signatures, k)
  }

  /** Round `k`: fetch that round's observations, then refine `guess` against
      them. Either step may raise. */
  function Round(minimize: Minimiser, bounds: seq<Bound>, source: ObsSource, k: nat, guess: seq<real>): Result<Fit> {
    var obs :- source(k);
    minimize(guess, bounds, obs)
  }

  /** Reference definition of the warm-start chain: the `n` rounds from round
      `from` on, the first refining `start` and each later one refining the
      previous round's point; the first round that raises ends the chain
      with its exception. */
  function Chain(minimize: Minimiser, bounds: seq<Bound>, source: ObsSource, start: seq<real>, from: nat, n: nat): (r: Result<seq<Fit>>)
    ensures r.Ok? ==> |r.value| == n
    decreases n
  {
    if n == 0 then Ok([])
    else match Round(minimize, bounds, source, from, start)
      case Err(e) => Err(e)
      case Ok(first) =>
        match Chain(minimize, bounds, source, first.x, from + 1, n - 1)
        case Err(e) => Err(e)
        case Ok(rest) => Ok([first] + rest)
  }

  /** The start point of the `k`-th round of a chain started from `start`. */
  function StartOf(start: seq<real>, fits: seq<Fit>, k: nat): seq<real>
    requires k <= |fits|
  {
    if k == 0 then start else fits[k - 1].x
  }

  /** The warm-start recurrence: the `k`-th fit is round `from + k` run on the
      previous fit's point (on `start` for the first), with the same bounds
      every time. */
  predicate WarmStarted(minimize: Minimiser, bounds: seq<Bound>, source: ObsSource, start: seq<real>, from: nat, fits: seq<Fit>) {
    forall k {:trigger StartOf(start, fits, k)} :: 0 <= k < |fits| ==>
      Round(minimize, bounds, source, from + k, StartOf(start, fits, k)) == Ok(fits[k])
  }

  /** A fit followed by a recurrence started from its point is a recurrence. */
  lemma WarmStartedCons(minimize: Minimiser, bounds: seq<Bound>, source: ObsSource, start: seq<real>, from: nat, first: Fit, rest: seq<Fit>)
    requires Round(minimize, bounds, source, from, start) == Ok(first)
    requires WarmStarted(minimize, bounds, source, first.x, from + 1, rest)
    ensures WarmStarted(minimize, bounds, source, start, from, [first] + rest)
  {
    var fits := [first] + rest;
    forall k | 0 <= k < |fits|
      ensures Round(minimize, bounds, source, from + k, StartOf(start, fits, k)) == Ok(fits[k])
    {
      if k > 0 {
        assert StartOf(start, fits, k) == StartOf(first.x, rest, k - 1);
        assert fits[k] == rest[k - 1];
      }
    }
  }

  /** The tail of a recurrence is a recurrence started from its first point. */
  lemma WarmStartedTail(minimize: Minimiser, bounds: seq<Bound>, source: ObsSource, start: seq<real>, from: nat, fits: seq<Fit>)
    requires |fits| > 0
    requires WarmStarted(minimize, bounds, source, start, from, fits)
    ensures Round(minimize, bounds, source, from, start) == Ok(fits[0])
    ensures WarmStarted(minimize, bounds, source, fits[0].x, from + 1, fits[1..])
  {
    assert StartOf(start, fits, 0) == start;
    var rest := fits[1..];
    forall k | 0 <= k < |rest|
      ensures Round(minimize, bounds, source, from + 1 + k, StartOf(fits[0].x, rest, k)) == Ok(rest[k])
    {
      assert StartOf(fits[0].x, rest, k) == StartOf(start, fits, k + 1);
    }
  }

  /** The chain, when it completes, satisfies the recurrence. */
  lemma {:induction false} ChainIsWarmStarted(minimize: Minimiser, bounds: seq<Bound>, source: ObsSource, start: seq<real>, from: nat, n: nat)
    ensures Chain(minimize, bounds, source, start, from, n).Ok? ==>
              WarmStarted(minimize, bounds, source, start, from, Chain(minimize, bounds, source, start, from, n).value)
    decreases n
  {
    if n > 0 && Chain(minimize, bounds, source, start, from, n).Ok? {
      var first := Round(minimize, bounds, source, from, start).value;
      ChainIsWarmStarted(minimize, bounds, source, first.x, from + 1, n - 1);
      WarmStartedCons(minimize, bounds, source, start, from, first, Chain(minimize, bounds, source, first.x, from + 1, n - 1).value);
    }
  }

  /** The result of `Prepend(fits, r)`: `fits` in front of a completed rest. */
  function Prepend(fits: seq<Fit>, r: Result<seq<Fit>>): Result<seq<Fit>> {
    match r
    case Err(e) => Err(e)
    case Ok(rest) => Ok(fits + rest)
  }

  /** One round taken off the front of a chain. */
  lemma ChainUnfold(minimize: Minimiser, bounds: seq<Bound>, source: ObsSource, start: seq<real>, from: nat, n: nat, first: Fit)
    requires n > 0
    requires Round(minimize, bounds, source, from, start) == Ok(first)
    ensures Chain(minimize, bounds, source, start, from, n) ==
            Prepend([first], Chain(minimize, bounds, source, first.x, from + 1, n - 1))
  {
  }

  /** Putting two blocks of fits in front one after the other or at once agrees. */
  lemma PrependConcat(a: seq<Fit>, b: seq<Fit>, r: Result<seq<Fit>>)
    ensures Prepend(a, Prepend(b, r)) == Prepend(a + b, r)
  {
    if r.Ok? {
      assert a + (b + r.value) == (a + b) + r.value;
    }
  }

  /** Putting nothing in front changes nothing. */
  lemma PrependNothing(r: Result<seq<Fit>>)
    ensures Prepend([], r) == r
  {
    if r.Ok? {
      assert [] + r.value == r.value;
    }
  }

  /** A chain whose first rounds follow the recurrence is those rounds
      followed by the chain of the remaining rounds. */
  lemma {:induction false} ChainAfterPrefix(minimize: Minimiser, bounds: seq<Bound>, source: ObsSource, start: seq<real>, from: nat, n: nat, fits: seq<Fit>)
    requires |fits| <= n
    requires WarmStarted(minimize, bounds, source, start, from, fits)
    ensures Chain(minimize, bounds, source, start, from, n) ==
            Prepend(fits, Chain(minimize, bounds, source, StartOf(start, fits, |fits|), from + |fits|, n - |fits|))
    decreases |fits|
  {
    var tail := Chain(minimize, bounds, source, StartOf(start, fits, |fits|), from + |fits|, n - |fits|);
    if |fits| > 0 {
      WarmStartedTail(minimize, bounds, source, start, from, fits);
      var rest := fits[1..];
      ChainAfterPrefix(minimize, bounds, source, fits[0].x, from + 1, n - 1, rest);
      assert StartOf(fits[0].x, rest, |rest|) == StartOf(start, fits, |fits|);
      ChainUnfold(minimize, bounds, source, start, from, n, fits[0]);
      PrependConcat([fits[0]], rest, tail);
      assert [fits[0]] + rest == fits;
    } else {
      assert StartOf(start, fits, 0) == start;
      PrependNothing(tail);
    }
  }

  /** The chain is the only sequence of `n` fits satisfying the recurrence. */
  lemma ChainIsUnique(minimize: Minimiser, bounds: seq<Bound>, source: ObsSource, start: seq<real>, from: nat, n: nat, fits: seq<Fit>)
    requires |fits| == n
    requires WarmStarted(minimize, bounds, source, start, from, fits)
    ensures Chain(minimize, bounds, source, start, from, n) == Ok(fits)
  {
    ChainAfterPrefix(minimize, bounds, source, start, from, n, fits);
    assert fits + [] == fits;
  }

  /** `fits` follow the recurrence and the round after them raises `e`. */
  predicate FailsAfter(minimize: Minimiser, bounds: seq<Bound>, source: ObsSource, start: seq<real>, from: nat, fits: seq<Fit>, e: Error) {
    && WarmStarted(minimize, bounds, source, start, from, fits)
    && Round(minimize, bounds, source, from + |fits|, StartOf(start, fits, |fits|)) == Err(e)
  }

  /** A failure after a recurrence started from a fit's point is a failure
      after the recurrence with that fit in front. */
  lemma FailureAfterCons(minimize: Minimiser, bounds: seq<Bound>, source: ObsSource, start: seq<real>, from: nat, first: Fit, rest: seq<Fit>, e: Error)
    requires Round(minimize, bounds, source, from, start) == Ok(first)
    requires FailsAfter(minimize, bounds, source, first.x, from + 1, rest, e)
    ensures FailsAfter(minimize, bounds, source, start, from, [first] + rest, e)
  {
    WarmStartedCons(minimize, bounds, source, start, from, first, rest);
    var fits := [first] + rest;
    assert StartOf(start, fits, |fits|) == StartOf(first.x, rest, |rest|);
  }

  /** Where the exception of a failing chain comes from: its first round, or
      the chain of the remaining rounds. */
  lemma ChainFailureUnfold(minimize: Minimiser, bounds: seq<Bound>, source: ObsSource, start: seq<real>, from: nat, n: nat)
    requires Chain(minimize, bounds, source, start, from, n).Err?
    ensures n > 0
    ensures Round(minimize, bounds, source, from, start).Err? ==>
              Round(minimize, bounds, source, from, start).error == Chain(minimize, bounds, source, start, from, n).error
    ensures Round(minimize, bounds, source, from, start).Ok? ==>
              Chain(minimize, bounds, source, Round(minimize, bounds, source, from, start).value.x, from + 1, n - 1)
              == Err(Chain(minimize, bounds, source, start, from, n).error)
  {
  }

  /** A chain that raises does so at its first failing round: the rounds
      before it follow the recurrence, and that round, started from the last
      of them, raises the chain's exception. */
  lemma {:induction false} ChainFailsAtFirstFailingRound(minimize: Minimiser, bounds: seq<Bound>, source: ObsSource, start: seq<real>, from: nat, n: nat)
    requires Chain(minimize, bounds, source, start, from, n).Err?
    ensures exists fits :: |fits| < n && FailsAfter(minimize, bounds, source, start, from, fits, Chain(minimize, bounds, source, start, from, n).error)
    decreases n
  {
    ChainFailureUnfold(minimize, bounds, source, start, from, n);
    var e := Chain(minimize, bounds, source, start, from, n).error;
    var r0 := Round(minimize, bounds, source, from, start);
    if r0.Err? {
      var none: seq<Fit> := [];
      assert FailsAfter(minimize, bounds, source, start, from, none, e) by {
        assert StartOf(start, none, 0) == start;
      }
    } else {
      var first := r0.value;
      ChainFailsAtFirstFailingRound(minimize, bounds, source, first.x, from + 1, n - 1);
      var rest :| |rest| < n - 1 && FailsAfter(minimize, bounds, source, first.x, from + 1, rest, e);
      FailureAfterCons(minimize, bounds, source, start, from, first, rest, e);
      assert |[first] + rest| < n;
    }
  }

  /** Every round of a completed chain had its observations; with a minimiser
      that never raises, the converse holds too. */
  lemma {:induction false} ChainCompletesWithObservations(minimize: Minimiser, bounds: seq<Bound>, source: ObsSource, start: seq<real>, from: nat, n: nat)
    ensures Chain(minimize, bounds, source, start, from, n).Ok? ==> forall k: nat :: from <= k < from + n ==> source(k).Ok?
    ensures (forall x0, b, o :: minimize(x0, b, o).Ok?) && (forall k: nat :: from <= k < from + n ==> source(k).Ok?) ==>
              Chain(minimize, bounds, source, start, from, n).Ok?
    decreases n
  {
    if n > 0 {
      match Round(minimize, bounds, source, from, start)
      case Err(_) =>
      case Ok(first) =>
        ChainCompletesWithObservations(minimize, bounds, source, first.x, from + 1, n - 1);
    }
  }

  /** If the minimiser never leaves the box it is given, no round of a
      completed chain does. */
  lemma ChainWithinBounds(minimize: Minimiser, bounds: seq<Bound>, source: ObsSource, start: seq<real>, from: nat, n: nat)
    requires forall x0, b, o :: minimize(x0, b, o).Ok? ==> WithinBounds(minimize(x0, b, o).value.x, b)
    ensures Chain(minimize, bounds, source, start, from, n).Ok? ==>
              forall k :: 0 <= k < n ==> WithinBounds(Chain(minimize, bounds, source, start, from, n).value[k].x, bounds)
  {
    var c := Chain(minimize, bounds, source, start, from, n);
    if c.Ok? {
      ChainIsWarmStarted(minimize, bounds, source, start, from, n);
      forall k | 0 <= k < n
        ensures WithinBounds(c.value[k].x, bounds)
      {
        assert Round(minimize, bounds, source, from + k, StartOf(start, c.value, k)) == Ok(c.value[k]);
      }
    }
  }

  /** What the tracking driver stores: the point and the cost of every round. */
  datatype Trajectory = Trajectory(bestParams: seq<seq<real>>, bestFun: seq<real>)

  /** The two columns of a sequence of fits. */
  function Columns(fits: seq<Fit>): (t: Trajectory)
    ensures |t.bestParams| == |fits| && |t.bestFun| == |fits|
    ensures forall k :: 0 <= k < |fits| ==> t.bestParams[k] == fits[k].x && t.bestFun[k] == fits[k].fun
  {
    Trajectory(seq(|fits|, k requires 0 <= k < |fits| => fits[k].x), seq(|fits|, k requires 0 <= k < |fits| => fits[k].fun))
  }

  /** The rounds of the tracking loop over any observation source: for each of
      the 25 rounds fetch that round's observations, refine the previous
      round's point within `initial_bounds`, and append the result whatever
      its cost. The first round that raises ends the loop with its exception. */
  method RefineFrom(start: seq<real>, source: ObsSource, minimize: Minimiser) returns (r: Result<Trajectory>)
    ensures r.Ok? <==> Chain(minimize, InitialBounds, source, start, 0, Rounds).Ok?
    ensures r.Err? ==> r.error == Chain(minimize, InitialBounds, source, start, 0, Rounds).error
    ensures r.Ok? ==> r.value == Columns(Chain(minimize, InitialBounds, source, start, 0, Rounds).value)
  {
    var guess := start;
    var fits: seq<Fit> := [];
    var round: nat := 0;
    PrependNothing(Chain(minimize, InitialBounds, source, start, 0, Rounds));
    while round < Rounds
      invariant round <= Rounds
      invariant Chain(minimize, InitialBounds, source, start, 0, Rounds)
                == Prepend(fits, Chain(minimize, InitialBounds, source, guess, round, Rounds - round))
    {
      var obs := source(round);
      if obs.Err? {
        assert Chain(minimize, InitialBounds, source, guess, round, Rounds - round) == Err(obs.error);
      }
      var roundObs :- obs;
      var fit := minimize(guess, InitialBounds, roundObs);
      if fit.Err? {
        assert Chain(minimize, InitialBounds, source, guess, round, Rounds - round) == Err(fit.error);
      }
      var roundFit :- fit;
      assert Prepend(fits, Chain(minimize, InitialBounds, source, guess, round, Rounds - round))
             == Prepend(fits + [roundFit], Chain(minimize, InitialBounds, source, roundFit.x, round + 1, Rounds - round - 1)) by {
        ChainUnfold(minimize, InitialBounds, source, guess, round, Rounds - round, roundFit);
        PrependConcat(fits, [roundFit], Chain(minimize, InitialBounds, source, roundFit.x, round + 1, Rounds - round - 1));
      }
      guess := roundFit.x;
      fits := fits + [roundFit];
      round := round + 1;
    }
    assert fits + [] == fits;
    r := Ok(Columns(fits));
  }

  /** The first and the last row of the tracked site's Ku-band HH table, which
      the driver prints before anything else: a missing table is a KeyError
      and a table without rows an IndexError of `iloc[0]`. */
  function FirstAndLastRows(loaded: Signatures): (r: Result<(seq<Sample>, seq<Sample>)>)
    ensures r.Err? <==> "Ku_HH_RS2" !in loaded || |loaded["Ku_HH_RS2"]| == 0
    ensures "Ku_HH_RS2" !in loaded ==> r == Err(KeyError("Ku_HH_RS2"))
    ensures "Ku_HH_RS2" in loaded && |loaded["Ku_HH_RS2"]| == 0 ==> r == Err(IndexError(0))
    ensures r.Ok? ==> r.value.0 in loaded["Ku_HH_RS2"] && r.value.1 in loaded["Ku_HH_RS2"]
    ensures r.Ok? && |loaded["Ku_HH_RS2"]| == 1 ==> r.value.0 == r.value.1
  {
    if "Ku_HH_RS2" !in loaded then Err(KeyError("Ku_HH_RS2"))
    else
      var table := loaded["Ku_HH_RS2"];
      if |table| == 0 then Err(IndexError(0))
      else Ok((table[0], table[|table| - 1]))
  }

  /** The stages before the rounds all pass: the printed rows exist, the
      observations of timestep 0 can be built, a vector is selected and
      `print_params` accepts it. */
  predicate ReadyToTrack(runs: seq<seq<TraceEntry>>, loaded: Signatures, windowed: Signatures) {
    && FirstAndLastRows(loaded).Ok?
    && GetObsDict(windowed, 0).Ok?
    && SelectBest(runs).Ok?
    && |SelectBest(runs).value.params| >= ParamCount
  }

  /** The tracking driver. `loaded` holds the signature tables as loaded and
      `windowed` the same tables cut to the tracking window; round `k` is fitted
      to `get_obs_dict(windowed, k)`. Exceptions come in the order of the
      script: the printed table rows, the observations of timestep 0, the
      selection, `print_params` of the selected vector, then the rounds. */
  method TrackMode(runs: seq<seq<TraceEntry>>, loaded: Signatures, windowed: Signatures, minimize: Minimiser) returns (r: Result<Trajectory>)
    ensures FirstAndLastRows(loaded).Err? ==> r == Err(FirstAndLastRows(loaded).error)
    ensures FirstAndLastRows(loaded).Ok? && GetObsDict(windowed, 0).Err? ==> r == Err(GetObsDict(windowed, 0).error)
    ensures FirstAndLastRows(loaded).Ok? && GetObsDict(windowed, 0).Ok? && SelectBest(runs).Err? ==> r == Err(ValueError)
    ensures FirstAndLastRows(loaded).Ok? && GetObsDict(windowed, 0).Ok? && SelectBest(runs).Ok? && |SelectBest(runs).value.params| < ParamCount ==>
              r == Err(IndexError(|SelectBest(runs).value.params|))
    ensures r.Ok? <==> ReadyToTrack(runs, loaded, windowed) &&
                       Chain(minimize, InitialBounds, SignatureSource(windowed), SelectBest(runs).value.params, 0, Rounds).Ok?
    ensures ReadyToTrack(runs, loaded, windowed) && r.Err? ==>
              r.error == Chain(minimize, InitialBounds, SignatureSource(windowed), SelectBest(runs).value.params, 0, Rounds).error
    ensures r.Ok? ==> |r.value.bestParams| == Rounds && |r.value.bestFun| == Rounds
    ensures r.Ok? ==> r.value == Columns(Chain(minimize, InitialBounds, SignatureSource(windowed), SelectBest(runs).value.params, 0, Rounds).value)
  {
    var rows :- FirstAndLastRows(loaded);
    var firstObs :- GetObsDict(windowed, 0);
    var best :- SelectBest(runs);
    var named :- PrintParams(best.params);
    r := RefineFrom(best.params, SignatureSource(windowed), minimize);
  }
}
